=== FILE: README.md ===
# Rate limiting, retry backoff and name conversion of a Telethon fork, in Dafny

This project models three small pieces of logic from a fork of the Telethon
Telegram client and proves properties about them.

- **`RateLimiter`** (`telethon/rate_limiters.py`, module `RateLimiters`). This is a sliding-window limiter.
  - The constructor turns a requested burst limit into an effective one of `max(floor(b) - 1, 1)`.
  - A window of zero or less disables the limiter, and a disabled limiter has no queue.
  - Entering computes the wait before a call may run. Leaving records `round(now, 4)` in a timestamp queue and trims the entries that have fallen out of the window.
  - The queue is a `seq<real>`, oldest first.
  - The clock reading is an argument, and the wait is returned instead of slept.
  - `ActionRateLimitDefinition` and `get_rate_limiters` are constant presets that feed the constructor.
- **`Backoff`** and **`delay_with_jitter`** (`telethon/fork_helpers.py`, module `ForkHelpers`). This is a retry-delay curve.
  - It has an attempt cap and a one-way saturation latch on `_last_value`.
  - Jitter is gated by a threshold.
  - Results are clamped into `[min, max]` and rounded to three places.
  - A pooled sampler, `precomp_v`, ignores the latch.
  - A delay helper adds a minimum-delay floor.
  - The log-space curve, the precomputed pools and every random draw (`uniform`, `choice`, `randint`, `rand_factor`, the jitter `e^u`) are arguments.
- **`snake_to_camel_case`** (`telethon_generator/utils.py`, module `GeneratorUtils`).
  - The regex substitution `_([a-z])` is modelled as a left-to-right scan.
  - It is proved equal to an independent pointwise description.
  - Then the first character is upper-cased and every later underscore is removed.

Python exceptions become the error side of a `Result` (module `Results`). `Decimal` and `float` values become Dafny `real`s. Python's `round(x, n)` on a `Decimal` rounds half to even; module `Rounding` defines it exactly on reals.

Some behaviours of the code that are easy to miss, and that the model keeps:
- A disabled limiter is not a no-op. The constructor returns before creating the queue, and the enter and exit paths never check `disabled`. Using a disabled limiter therefore raises `AttributeError`, modelled as `Err(NoQueue)`.
- The queue is not bounded by the burst limit. Leaving never looks at the burst limit, so the queue can hold more entries than the limit (`RateLimiters.QueueMayExceedBurstLimit`).
- The default attempt of the pooled sampler is `0`, which is replaced by a random one. A `None` attempt is not replaced: it raises `TypeError` at the cap comparison.
- `value` has no jitter flag. Above the threshold it always jitters.
- `get_rate_limiters` returns the two preset definitions, not limiters. The model does the same.

## Model

| member | source | states |
|---|---|---|
| RateLimiters.NormalizeBurstLimit | telethon/rate_limiters.py:52-61 | The effective burst limit is never below 1. For a request of at least 2 it is exactly one below the request's floor. Every request below 3 gives 1. |
| RateLimiters.NormalizeBurstLimitExamples | telethon/rate_limiters.py:52-61 | The presets' 30 and 20 become 29 and 19. 1 and 0 become 1, 2.9 becomes 1, and 3.5 becomes 2. |
| RateLimiters.NewRateLimiter | telethon/rate_limiters.py:43-68 | Construction fails with `TypeError` exactly when an argument is `None`. The window is kept as given. The stored burst limit is the normalised one, `max(floor(b) - 1, 1)`. The limiter is disabled, with no queue, exactly when the window is at most 0. An enabled limiter starts with an empty queue. |
| RateLimiters.DefaultRateLimiterShape | telethon/rate_limiters.py:40-46 | The default limiter allows one call per 1.017-second window and starts empty. |
| RateLimiters.TrimFront | telethon/rate_limiters.py:138-139 | For a positive window the trim loop ends. It removes only from the front and never removes the newest entry. What stays spans less than the window, and every removed entry was at least a window older than the newest. |
| RateLimiters.ExitShared | telethon/rate_limiters.py:130-139 | Leaving fails exactly on a disabled limiter. Otherwise the queue is non-empty, ends in `round(now, 4)` and spans less than the window. If the newest old entry lies a window or more before `now`, the queue is exactly that one timestamp. Otherwise it is what remains of the old queue plus the timestamp after removals from the front. Exactly the entries a window or more older than the new timestamp are removed: every removed entry is that old, and the first kept one is not. Limit and window do not change. |
| RateLimiters.SleepSeconds | telethon/rate_limiters.py:146-158 | The wait never exceeds the window. It is within half a unit in the fourth place of the time left until the oldest entry leaves the window, unless capped at the window. It is non-negative whenever the queue spans less than the window. |
| RateLimiters.Admission | telethon/rate_limiters.py:78-87 | Entering fails exactly on a disabled limiter. The wait is either 0 or a value above 0.0001 and at most the window. It is positive exactly when the queue has reached the burst limit and the computed wait is above 0.0001, and it is then that wait. The same decision is taken by `__aenter__` (lines 106-116). |
| RateLimiters.ExitAll | telethon/rate_limiters.py:130-139 | A run of exits fails exactly when the limiter is disabled and the run is non-empty. It keeps the limiter valid and does not change its limit, window or enabled state. |
| RateLimiters.ExitKeepsSettled | telethon/rate_limiters.py:133-139 | Take an enabled limiter whose queue is ascending and spans less than the window. An exit at a clock reading not older than the newest entry leaves the queue the same way. Every entry is then within one window before the new timestamp. |
| RateLimiters.ExitAllKeepsSettled | telethon/rate_limiters.py:133-139 | Exits at non-decreasing clock readings keep the queue ascending and spanning less than the window, and the newest entry is the last reading, rounded. |
| RateLimiters.ExitAtOneInstant | telethon/rate_limiters.py:136-139 | An exit at the instant every queued entry holds grows the queue by exactly one entry and removes nothing. |
| RateLimiters.ExitsAtOneInstant | telethon/rate_limiters.py:136-139 | `m` exits at one instant grow the queue by exactly `m` entries, all at that instant. |
| RateLimiters.FullQueueWaitsOneWindow | telethon/rate_limiters.py:146-150 | The queue's entries all hold one instant. At or above the burst limit the next caller waits exactly one window; below it, the caller does not wait. |
| RateLimiters.ActionRateLimitDefinition.Generate | telethon/rate_limiters.py:167-176 | Generating a limiter from a definition fails with `TypeError` exactly when its burst limit or window is missing. Otherwise the limiter has the normalised burst limit and the definition's window, and it is disabled exactly when the window is at most 0. |
| RateLimiters.GetRateLimiters | telethon/rate_limiters.py:184-199 | The two presets are in the `api_action` namespace. The group preset allows 20 per 61.02 s and comes first; the user preset allows 30 per 1.017 s. What they generate is stated by `RateLimiters.PresetsGenerate`. |
| RateLimiters.PresetsGenerate | telethon/rate_limiters.py:161-199 | The group preset configures an enabled limiter of 19 per 61.02 s and the user preset 29 per 1.017 s. A definition with every default cannot configure a limiter (`TypeError`). |
| RateLimiters.UserPresetForcesWait | telethon/rate_limiters.py:184-190 | On the user preset, up to 28 exits at one instant let the next caller through without waiting. 29 or more make it wait the whole 1.017 s window. |
| RateLimiters.QueueMayExceedBurstLimit | telethon/rate_limiters.py:130-139 | A limiter with an effective limit of 1 and a 1 s window can hold two entries after two exits half a window apart. |
| RateLimiters.IdleLimiterRestarts | telethon/rate_limiters.py:131-136 | A limiter idle for a window or more holds only the new timestamp after the next exit. |
| Rounding.RoundHalfEven | telethon/rate_limiters.py:136 | Rounding to an integer moves a value by at most one half. |
| Rounding.RoundHalfEvenTie | telethon/rate_limiters.py:136 | A value halfway between two integers rounds to the even one, as `Decimal` rounding does by default. |
| Rounding.Round4 | telethon/rate_limiters.py:136 | `round(x, 4)` is within half a unit in the fourth place of `x`. |
| Rounding.Round4Monotone | telethon/rate_limiters.py:136 | `round(x, 4)` preserves order, so non-decreasing clock readings give non-decreasing timestamps. |
| Rounding.Round4OfGrid | telethon/rate_limiters.py:136 | A value with at most four decimal places is unchanged by `round(x, 4)`. |
| Rounding.Round4OnGrid | telethon/rate_limiters.py:136 | `round(x, 4)` has at most four decimal places. |
| Rounding.Round3 | telethon/fork_helpers.py:155 | `round(x, 3)` is within half a unit in the third place of `x`. |
| Rounding.Round3Monotone | telethon/fork_helpers.py:155 | `round(x, 3)` preserves order. |
| Rounding.Round3OfGrid | telethon/fork_helpers.py:155 | A value with at most three decimal places is unchanged by `round(x, 3)`. |
| Rounding.Round3OnGrid | telethon/fork_helpers.py:155 | `round(x, 3)` has at most three decimal places. |
| ForkHelpers.Clamp | telethon/fork_helpers.py:147-153 | With ordered bounds, the clamp lands inside them. A value already inside is unchanged, and a value beyond a bound becomes that bound. |
| ForkHelpers.ClampIdempotent | telethon/fork_helpers.py:147-153 | Clamping twice is clamping once. |
| ForkHelpers.ClampMonotone | telethon/fork_helpers.py:147-153 | Clamping preserves order. |
| ForkHelpers.ConformTo | telethon/fork_helpers.py:139-155 | A conformed value lies within half a unit in the third place of the argument clamped into `[lo, hi]`, and so between the rounded bounds. With a lower bound of at least 0.001 it is at least 0.001. |
| ForkHelpers.Conform | telethon/fork_helpers.py:139-155 | The conform step of a curve lies within half a unit in the third place of the argument clamped into the curve's bounds, and between the rounded bounds. |
| ForkHelpers.ConformReadsOnlyBounds | telethon/fork_helpers.py:147-153 | Two curves with the same bounds conform every value alike: the latch, the raw curve and the pools play no part. |
| ForkHelpers.ConformOfDefaultMax | telethon/fork_helpers.py:49-50 | The default bounds 0.01 and 302400.012 survive conforming unchanged. |
| ForkHelpers.Jittered | telethon/fork_helpers.py:130-133 | At or below `JITTER_TOP_LIM` the raw value is used exactly. Above it, the jitter is either added or subtracted. |
| ForkHelpers.Value | telethon/fork_helpers.py:108-137 | The guards run in order: cap first, then the latch (answering the conformed maximum for any attempt, including attempts of 0 or less), then `None` for attempts of 0 or less. Otherwise, for an attempt with a non-zero curve entry, the call succeeds with that entry, conformed and jittered only above the threshold. `IndexError` comes exactly when the attempt is past the curve, and the empty-slot error exactly when the entry is 0. Only a successful numeric answer from an unlatched curve is stored as `_last_value`; nothing else changes. |
| ForkHelpers.ValueAtCapIsIndexError | telethon/fork_helpers.py:117-126 | On a 100-entry curve, `value(100)` passes the cap guard and fails with `IndexError`. |
| ForkHelpers.ValueCapped | telethon/fork_helpers.py:117-118 | With the guard `>=`, every attempt from 100 up gets the cap error. On a 100-entry curve no attempt ends in `IndexError`. Every other attempt behaves as in `value`. |
| ForkHelpers.LatchIsTerminal | telethon/fork_helpers.py:117-121 | Once latched, a curve never changes again. Every later call answers with the conformed maximum or the cap error. This holds for `value` as written and for the corrected guard. |
| ForkHelpers.ReachingMaxLatches | telethon/fork_helpers.py:120-137 | A stored answer at or above the maximum sets the latch. |
| ForkHelpers.SaturationIsPermanent | telethon/fork_helpers.py:117-137 | After any call of a run answers at or above the maximum, every later call answers with exactly the conformed maximum or the cap error. This holds for `value` as written and for the corrected guard. |
| ForkHelpers.SuccessiveValuesNonDecreasing | telethon/fork_helpers.py:120-135 | On a non-decreasing curve without jitter, two successive calls answer in attempt order, whether or not the first call sets the latch. |
| ForkHelpers.ListIndex | telethon/fork_helpers.py:101 | Python list indexing accepts exactly `-size <= i < size`. A negative index counts from the end. |
| ForkHelpers.PoolAttempt | telethon/fork_helpers.py:98-99 | A zero attempt is replaced by a draw from [2, 4]; any other attempt is kept. |
| ForkHelpers.PoolSample | telethon/fork_helpers.py:101 | The pick succeeds exactly when the index is valid and the pool is non-empty. It then answers with a member of that pool, and otherwise fails with `IndexError`. |
| ForkHelpers.Finish | telethon/fork_helpers.py:103-106 | The tail of `precomp_v` succeeds exactly on a numeric sample, with that sample conformed, after multiplying it by the factor when jitter is asked for. It passes a failed pick on, and a `None` sample is a `TypeError`. A result lies between the rounded bounds. |
| ForkHelpers.PrecompV | telethon/fork_helpers.py:88-106 | A `None` attempt is a `TypeError`, and an attempt above 100 is refused. A result lies between the rounded bounds and is at least 0.001 on a well-formed curve. Up to the cap, `IndexError` comes exactly when the pick fails, and the call succeeds exactly when the pick yields a number. |
| ForkHelpers.PrecompVDrawsFromPool | telethon/fork_helpers.py:98-106 | A successful answer is some member of the looked-up pool, scaled when jitter is asked for, then conformed. |
| ForkHelpers.PrecompVIgnoresLatch | telethon/fork_helpers.py:88-106 | The answer is the same whatever `_last_value` holds. |
| ForkHelpers.PrecompVZeroSubstitutes | telethon/fork_helpers.py:98-99 | A zero attempt answers as the substituted attempt would. |
| ForkHelpers.PrecompVNegativeReadsFromEnd | telethon/fork_helpers.py:101 | Attempt -1 is not refused and reads the last pool. |
| ForkHelpers.PrecompVAtCapIsIndexError | telethon/fork_helpers.py:95-101 | On a 100-pool table, `precomp_v(100)` passes the cap guard and fails with `IndexError`. |
| ForkHelpers.PrecompVCapped | telethon/fork_helpers.py:95-96 | With the guard `>=`, attempts from 100 up get the cap error. On a 100-pool table, for an attempt of 0 or more, `IndexError` then comes only from an empty pool. Every other attempt behaves as in `precomp_v`. |
| ForkHelpers.ApplyFloor | telethon/fork_helpers.py:169-173 | With no floor, a zero floor or a delay above the floor, the delay is unchanged. Otherwise a delay at most 0.777 of the floor gains the whole floor, and a larger one gains half of it. A non-negative delay ends at or above a positive floor, and a positive delay ends strictly above it. |
| ForkHelpers.ApplyFloorIdempotent | telethon/fork_helpers.py:169-173 | Applying the floor a second time changes nothing. |
| ForkHelpers.JitteredDelay | telethon/fork_helpers.py:164-167 | A `None` or zero delay becomes the jitter. Any other delay grows by exactly the jitter's reciprocal, so a positive jitter makes it strictly larger. Division by zero happens exactly when a non-zero delay meets a zero jitter. |
| ForkHelpers.DelayWithJitter | telethon/fork_helpers.py:161-175 | A failed jitter draw fails the delay with the same error. Otherwise the delay fails exactly when folding in the jitter divides by zero, and a successful delay is the jittered delay put through the minimum-delay floor. |
| ForkHelpers.DelayWithJitterAboveFloor | telethon/fork_helpers.py:161-175 | On a well-formed curve with a non-negative delay, the result exists exactly when the jitter draw succeeds. It is then strictly above a positive floor and strictly above the previous delay. |
| GeneratorUtils.UpperChar | telethon_generator/utils.py:6 | Upper-casing maps `a`-`z` to `A`-`Z` and leaves every other character alone. |
| GeneratorUtils.Sub | telethon_generator/utils.py:6 | The substitution never lengthens text and is empty only on empty text. |
| GeneratorUtils.SubIsPointwise | telethon_generator/utils.py:6 | The left-to-right scan matches the pointwise description. The `_` of each `_[a-z]` match vanishes and its letter is upper-cased, and every other character stays in place and in order. The output is one character shorter per match. |
| GeneratorUtils.SubOfNoMatch | telethon_generator/utils.py:6 | Text without a match is unchanged. |
| GeneratorUtils.SubHasNoMatch | telethon_generator/utils.py:6 | No underscore left in the output is followed by a lower-case letter. |
| GeneratorUtils.SubIdempotent | telethon_generator/utils.py:6 | Substituting twice is substituting once. |
| GeneratorUtils.SubUnderscoreFreePrefix | telethon_generator/utils.py:6 | A prefix without underscores is copied, and the scan carries on after it. |
| GeneratorUtils.RemoveUnderscores | telethon_generator/utils.py:7 | The output has no underscore and adds no character. Text without underscores is unchanged. |
| GeneratorUtils.RemoveUnderscoresLength | telethon_generator/utils.py:7 | Removing underscores shortens text by exactly their number. |
| GeneratorUtils.RemoveUnderscoresAppend | telethon_generator/utils.py:7 | Removing underscores from two texts joined is joining the two results: the kept characters of the first text come before those of the second. |
| GeneratorUtils.RemoveUnderscoresKeepsOrder | telethon_generator/utils.py:7 | Every character other than `_` is kept, in order. The one at position `i` lands at `i` less the number of underscores before it. |
| GeneratorUtils.SnakeToCamel | telethon_generator/utils.py:4-7 | The output is empty exactly on empty input and is never longer than the input. No underscore appears after the first character. |
| GeneratorUtils.SnakeToCamelShape | telethon_generator/utils.py:7 | The first character is the upper-cased first character of the substituted text. The rest is the substituted text without underscores. The length drops by one per match and one per later underscore. |
| GeneratorUtils.SnakeToCamelNoUnderscore | telethon_generator/utils.py:4-7 | A name without underscores only has its first character upper-cased. |
| GeneratorUtils.SnakeToCamelIdempotent | telethon_generator/utils.py:4-7 | Converting an already converted name changes nothing. |
| GeneratorUtils.SnakeToCamelUnderscoreRun | telethon_generator/utils.py:6-7 | `"__a"` becomes `"_A"`. Only the last underscore of a run belongs to the match, and the first survives as the leading character. |
| GeneratorUtils.SnakeToCamelOfCleanSub | telethon_generator/utils.py:4-7 | When the substituted text keeps no underscore after its first character, the conversion only upper-cases that character. |
| GeneratorUtils.SubOfMessageId | telethon_generator/utils.py:6 | The substitution turns `"message_id"` into `"messageId"`. |
| GeneratorUtils.SnakeToCamelMessageId | telethon_generator/utils.py:4-7 | `"message_id"` becomes `"MessageId"`. |

## Left out

**Python version**
- The model follows Python 3.9 or older. From Python 3.10 on, `asyncio.Lock(loop=...)` (line 70 of `rate_limiters.py`) raises `TypeError` when an enabled limiter is built, and `asyncio.sleep(..., loop=...)` (line 112) raises it when the async path waits. `NewRateLimiter` and `Admission` describe the older behaviour.

**Concurrency, I/O and time**
- The threading and asyncio locks, `time.sleep` and `asyncio.sleep`, `perf_counter`, `__await__`, logging and `print`. These are concurrency and I/O. The clock is an argument and the wait is a returned value. The two locks do not exclude each other, and that interaction is not modelled. `__exit__` and `__aexit__` read the clock before taking the lock (lines 93 and 121 of `rate_limiters.py`), so two exits can reach `exit_shared` out of clock order; `ExitKeepsSettled` and `ExitAllKeepsSettled` assume exits arrive in clock order.
- `__enter__`, `__exit__`, `__aenter__` and `__aexit__` themselves. Their logic is `Admission` and `ExitShared` under a lock.
- The `loop` arguments of the limiter and of `generate`. They only reach the event loop.

**Numeric semantics**
- The 28-digit precision of the `Decimal` context. Arithmetic on reals is exact.
- Non-finite values (`inf`, `nan`) as a burst limit or window. Every real is finite.
- The binary expansions of float constants. `Decimal(0.0001)`, `Decimal(0.01)`, `Decimal(302400.012)`, `1.017` and `JITTER_TOP_LIM` are taken at their decimal values.
- The rounding in `float(window_size_sec)`, and the final `float(...)` of the conform step.
- Non-integer attempts, and non-numeric attempts and burst limits. Attempts are integers; burst limits are any real. Only a missing (`None`) argument is modelled as a `TypeError`.

**Backoff construction**
- `np.logspace`, the 33-entry pools, and the calls to `value` while the pools are built. Those calls almost surely set the latch: the 33 calls of `value(99)` each add or subtract a jitter of at least 1.01 to an entry of about 302400.012, and any addition clamps to the maximum. The curve is an argument, latched or not.
- The module-level `__bo__` instance. `DelayWithJitter` takes the curve as an argument.
- The exponential `e^u` and `rand_factor`. These are floating-point draws and enter only as argument values. Their ranges (`u` between the minimum and `HALF_PIE`, the factor between 1/pi and e) are not imposed.

**Other files**
- `telethon/phones.py`, a wrapper over a third-party phone-number library.
- `telethon/os_cmd.py`, subprocess and thread handling.

**Weaker or restricted contracts**
- ForkHelpers.JitteredDelay: every delay is a real. In Python a non-zero `Decimal` delay raises `TypeError` when the float `1.000 / jitter` is added to it, and the model returns a number instead.
- ForkHelpers.ApplyFloor: every floor is a real. In Python a `Decimal` `min_val` the delay does not exceed raises `TypeError` at `min_val*0.777`, and the model returns a number instead.
- RateLimiters.SleepSeconds: it requires a non-empty queue, where Python raises `IndexError`. Entering only calls it once the queue holds at least the burst limit, which is at least 1. Its rounding is stated as a bound of half a unit in the fourth place, not as an equation.
- ForkHelpers.PoolSample: the uniform distribution of `choice` is not modelled. The draw names a position, and a position past the end stands for the last one.
- ForkHelpers.PrecompVDrawsFromPool: it says the answer comes from some pool member, not which one, because the pick is random.
- GeneratorUtils.SnakeToCamel: it requires an ASCII first character, because Python's `str.upper` can lengthen some non-ASCII characters. `UpperChar` only maps `a`-`z`.

## Findings

| source | as written | input that shows it | evidently intended | confidence | as-written member | corrected member |
|---|---|---|---|---|---|---|
| telethon/fork_helpers.py:117 | `value` guards with `attempt > MAX_ATTEMPTS`, but the curve it indexes at line 126 has `MAX_ATTEMPTS` entries (0 to 99) | `value(100)` on a `Backoff` whose `_last_value` is below the maximum, for instance one whose 33 construction-time calls of `value(99)` all subtracted their jitter (probability 2^-33). A latched curve answers with the maximum at line 121 first, and construction almost surely latches, so through `value` the `IndexError` is practically unreachable | either the cap error for every attempt without a curve entry (guard `attempt >= MAX_ATTEMPTS`, modelled by the corrected member), or, reading the curve as indexed by attempts 1 to `MAX_ATTEMPTS` with the cap error only above that, a curve one entry longer so that `value(100)` answers with a curve value | high that the guard is off by one, low that it shows in practice; not executed | ForkHelpers.ValueAtCapIsIndexError | ForkHelpers.ValueCapped |
| telethon/fork_helpers.py:95 | `precomp_v` guards with `attempt > MAX_ATTEMPTS`, but the pool table it indexes at line 101 has `MAX_ATTEMPTS` pools | `precomp_v(100)` on a fresh `Backoff` | the cap error for every attempt without a pool (`attempt >= MAX_ATTEMPTS`) | high, not executed | ForkHelpers.PrecompVAtCapIsIndexError | ForkHelpers.PrecompVCapped |

The latch lemmas over runs (`ForkHelpers.LatchIsTerminal`, `ForkHelpers.SaturationIsPermanent`) are proved for both guards. `DelayWithJitter` calls `precomp_v` as written; for its zero attempt both guards agree.

=== FILE: fork_helpers.dfy ===
/** The retry backoff of `telethon/fork_helpers.py`: a `Backoff` curve with a
    saturation latch and threshold-gated jitter, its pooled sampler
    `precomp_v`, and `delay_with_jitter`, which adds a minimum-delay floor.

    The log-space curve and the precomputed pools are fields supplied by the
    caller; every random draw (`uniform`, `choice`, `randint`, `rand_factor`)
    is an argument. */
module ForkHelpers {
  import opened Results
  import opened Rounding

  /** `Backoff.MIN`, the default lower bound of every result. */
  const Min: real := 0.01
  /** `Backoff.MAX`, the default upper bound of every result. */
  const Max: real := 302400.012
  /** `Backoff.MAX_ATTEMPTS`: the guard's cap, and the number of curve entries and pools. */
  const MaxAttempts: int := 100
  /** `HALF_PIE`, pi / 2 rounded to three places: the top of the jitter exponent's range. */
  const HalfPie: real := 1.571
  /** `Backoff.JITTER_TOP_LIM` = e^HALF_PIE * 1.111: curve values above it get jitter. */
  const JitterTopLim: real := 5.345529000410831

  /** The exceptions the modelled code raises. */
  datatype BackoffError =
    | TooManyAttempts   // `RuntimeError('Too many attempts!!!')`
    | IndexError        // an index outside the curve or pool table, or a draw from an empty pool
    | EmptySlot         // `ValueError`: the curve entry is zero
    | TypeError         // `None` compared with a number or multiplied
    | ZeroDivision      // `1.000 / jitter` with a zero jitter

  /** A backoff curve. `lastValue` is the only field that changes after
      construction; `logspace[a]` is the raw delay for attempt `a`, and
      `precomputed[a]` the pool of pre-jittered samples for attempt `a`
      (the pool for attempt 0 holds `None`s, because `value(0)` is `None`). */
  datatype Backoff = Backoff(
    minValue: real,
    maxValue: real,
    lastValue: Option<real>,
    logspace: seq<real>,
    precomputed: seq<seq<Option<real>>>)

  /** The bounds a `Backoff` is built with: positive and in order. */
  predicate WellFormed(b: Backoff) {
    0.001 <= b.minValue <= b.maxValue
  }

  /** The clamp step of `__conform_to_range_and_type`: `max(min(hi, x), lo)`. */
  function Clamp(lo: real, hi: real, x: real): (c: real)
    ensures lo <= hi ==> lo <= c <= hi
    ensures lo <= x <= hi ==> c == x
    ensures x <= lo ==> c == lo
    ensures lo <= hi <= x ==> c == hi
  {
    var capped := if hi <= x then hi else x;
    if capped < lo then lo else capped
  }

  /** `__conform_to_range_and_type` against the bounds `lo` and `hi`: clamp,
      then round to three places. */
  function ConformTo(lo: real, hi: real, x: real): (r: real)
    ensures lo <= hi ==> Round3(lo) <= r <= Round3(hi)
    ensures 0.001 <= lo <= hi ==> r >= 0.001
    ensures Clamp(lo, hi, x) - 0.0005 <= r <= Clamp(lo, hi, x) + 0.0005
  {
    var c := Clamp(lo, hi, x);
    assert 0.001 <= lo <= hi ==> Round3(c) >= 0.001 by {
      if 0.001 <= lo <= hi {
        Round3Monotone(0.001, c);
        assert OnGrid3(0.001);
        Round3OfGrid(0.001);
      }
    }
    assert lo <= hi ==> Round3(lo) <= Round3(c) <= Round3(hi) by {
      if lo <= hi {
        Round3Monotone(lo, c);
        Round3Monotone(c, hi);
      }
    }
    Round3(c)
  }

  /** `__conform_to_range_and_type` of a curve: it reads the bounds only. */
  function Conform(b: Backoff, x: real): (r: real)
    ensures b.minValue <= b.maxValue ==> Round3(b.minValue) <= r <= Round3(b.maxValue)
    ensures WellFormed(b) ==> r >= 0.001
    ensures Clamp(b.minValue, b.maxValue, x) - 0.0005 <= r <= Clamp(b.minValue, b.maxValue, x) + 0.0005
  {
    ConformTo(b.minValue, b.maxValue, x)
  }

  /** The conform step reads nothing of a curve but its bounds: the latch,
      the raw curve and the pools play no part. */
  lemma ConformReadsOnlyBounds(b: Backoff, c: Backoff, x: real)
    requires b.minValue == c.minValue && b.maxValue == c.maxValue
    ensures Conform(b, x) == Conform(c, x)
  {
  }

  /** Clamping twice is clamping once. */
  lemma ClampIdempotent(lo: real, hi: real, x: real)
    requires lo <= hi
    ensures Clamp(lo, hi, Clamp(lo, hi, x)) == Clamp(lo, hi, x)
  {
  }

  /** Clamping never reverses the order of its arguments. */
  lemma ClampMonotone(lo: real, hi: real, x: real, y: real)
    requires x <= y
    ensures Clamp(lo, hi, x) <= Clamp(lo, hi, y)
  {
  }

  /** The bounds of the default curve have three places, so conforming the maximum yields it unchanged. */
  lemma ConformOfDefaultMax(b: Backoff)
    requires b.minValue == Min && b.maxValue == Max
    ensures Conform(b, b.maxValue) == Max
    ensures Conform(b, b.minValue) == Min
  {
  }

  /** The latch of `value`: a truthy `_last_value` at or above the maximum. */
  predicate Latched(b: Backoff) {
    b.lastValue.Some? && b.lastValue.value != 0.0 && b.lastValue.value >= b.maxValue
  }

  /** The two draws `value` makes above the jitter threshold: the jitter
      `e^u` for `u = uniform(min_value, HALF_PIE)`, and whether `choice`
      picked `add` (otherwise `sub`). */
  datatype JitterDraw = JitterDraw(magnitude: real, add: bool)

  /** What one call of `value` returns, and the curve afterwards. */
  datatype ValueStep = ValueStep(result: Result<Option<real>, BackoffError>, next: Backoff)

  /** The curve value `value` computes for a positive attempt that is not
      latched: the raw entry, jittered when above the threshold, conformed. */
  function Jittered(raw: real, draw: JitterDraw): (x: real)
    ensures raw <= JitterTopLim ==> x == raw
    ensures raw > JitterTopLim ==> x == raw + draw.magnitude || x == raw - draw.magnitude
  {
    if raw > JitterTopLim then
      if draw.add then raw + draw.magnitude else raw - draw.magnitude
    else
      raw
  }

  /** Everything `value` does after its attempt-cap guard. */
  function ValueUnguarded(b: Backoff, attempt: int, draw: JitterDraw): ValueStep {
    if Latched(b) then
      ValueStep(Ok(Some(Conform(b, b.maxValue))), b)
    else if attempt <= 0 then
      ValueStep(Ok(None), b)
    else if attempt >= |b.logspace| then
      ValueStep(Err(IndexError), b)
    else if b.logspace[attempt] == 0.0 then
      ValueStep(Err(EmptySlot), b)
    else
      var r := Conform(b, Jittered(b.logspace[attempt], draw));
      ValueStep(Ok(Some(r)), b.(lastValue := Some(r)))
  }

  /** `Backoff.value(attempt)`: the cap check comes first, then the latch, then
      the `None` answer for attempts of zero or less; otherwise the curve entry,
      jittered above `JITTER_TOP_LIM`, conformed, and remembered as `_last_value`. */
  function Value(b: Backoff, attempt: int, draw: JitterDraw): (s: ValueStep)
    ensures attempt > MaxAttempts ==> s == ValueStep(Err(TooManyAttempts), b)
    ensures attempt <= MaxAttempts && Latched(b) ==>
      s == ValueStep(Ok(Some(Conform(b, b.maxValue))), b)
    ensures attempt <= 0 && !Latched(b) ==> s == ValueStep(Ok(None), b)
    ensures s.result.Ok? && s.result.value.Some? ==>
      (b.minValue <= b.maxValue ==> Round3(b.minValue) <= s.result.value.value <= Round3(b.maxValue))
    ensures 1 <= attempt <= MaxAttempts && !Latched(b) && s.result.Ok? ==>
      && attempt < |b.logspace|
      && s.result.value.Some?
      && s.next == b.(lastValue := s.result.value)
      && (b.logspace[attempt] <= JitterTopLim ==> s.result.value.value == Conform(b, b.logspace[attempt]))
      && (b.logspace[attempt] > JitterTopLim ==>
            s.result.value.value == Conform(b, b.logspace[attempt] + draw.magnitude)
            || s.result.value.value == Conform(b, b.logspace[attempt] - draw.magnitude))
    ensures 1 <= attempt <= MaxAttempts && attempt < |b.logspace| && b.logspace[attempt] != 0.0 && !Latched(b) ==>
      s.result.Ok? && s.result.value.Some?
    ensures 1 <= attempt <= MaxAttempts && !Latched(b) ==>
      ((s.result == Err(IndexError)) <==> attempt >= |b.logspace|)
    ensures 1 <= attempt < |b.logspace| && attempt <= MaxAttempts && !Latched(b) ==>
      ((s.result == Err(EmptySlot)) <==> b.logspace[attempt] == 0.0)
    ensures s.result.Err? || s.result.value.None? || Latched(b) ==> s.next == b
    ensures s.next.logspace == b.logspace && s.next.precomputed == b.precomputed
    ensures s.next.minValue == b.minValue && s.next.maxValue == b.maxValue
  {
    if attempt > MaxAttempts then ValueStep(Err(TooManyAttempts), b)
    else ValueUnguarded(b, attempt, draw)
  }

  /** `value(MAX_ATTEMPTS)` passes the `attempt > MAX_ATTEMPTS` guard and then
      indexes one past the end of a curve of `MAX_ATTEMPTS` entries, so it raises
      `IndexError` instead of the cap error. */
  lemma ValueAtCapIsIndexError(b: Backoff, draw: JitterDraw)
    requires !Latched(b) && |b.logspace| == MaxAttempts
    ensures Value(b, MaxAttempts, draw).result == Err(IndexError)
  {
  }

  /** `value` with the guard `attempt >= MAX_ATTEMPTS`, which turns away every
      attempt the curve has no entry for. It differs from `Value` only at
      `MAX_ATTEMPTS`, where it answers with the cap error. */
  function ValueCapped(b: Backoff, attempt: int, draw: JitterDraw): (s: ValueStep)
    ensures attempt >= MaxAttempts ==> s == ValueStep(Err(TooManyAttempts), b)
    ensures |b.logspace| == MaxAttempts ==> s.result != Err(IndexError)
    ensures attempt != MaxAttempts ==> s == Value(b, attempt, draw)
  {
    if attempt >= MaxAttempts then ValueStep(Err(TooManyAttempts), b)
    else ValueUnguarded(b, attempt, draw)
  }

  /** One call of `value`: the attempt and the draws it makes. */
  datatype ValueCall = ValueCall(attempt: int, draw: JitterDraw)

  /** The answers of a sequence of `value` calls on one curve, and the curve afterwards. */
  datatype ValueRunResult = ValueRunResult(results: seq<Result<Option<real>, BackoffError>>, last: Backoff)

  /** One call of `value` with the guard as written (`Value`), or with the
      corrected guard (`ValueCapped`) when `corrected` holds. */
  function ValueWith(corrected: bool, b: Backoff, attempt: int, draw: JitterDraw): (s: ValueStep)
    ensures !corrected ==> s == Value(b, attempt, draw)
    ensures corrected ==> s == ValueCapped(b, attempt, draw)
  {
    if corrected then ValueCapped(b, attempt, draw) else Value(b, attempt, draw)
  }

  /** Call `value` once per element of `calls`, threading the latch through. */
  function ValueRun(corrected: bool, b: Backoff, calls: seq<ValueCall>): (run: ValueRunResult)
    ensures |run.results| == |calls|
    decreases |calls|
  {
    if |calls| == 0 then ValueRunResult([], b)
    else
      var s := ValueWith(corrected, b, calls[0].attempt, calls[0].draw);
      var rest := ValueRun(corrected, s.next, calls[1..]);
      ValueRunResult([s.result] + rest.results, rest.last)
  }

  /** Once latched, a curve stays latched: every later call answers with the
      conformed maximum, or with the cap error, and the curve never changes.
      This holds for either guard. */
  lemma {:induction false} LatchIsTerminal(corrected: bool, b: Backoff, calls: seq<ValueCall>)
    requires Latched(b)
    ensures ValueRun(corrected, b, calls).last == b
    ensures forall k :: 0 <= k < |calls| ==>
      ValueRun(corrected, b, calls).results[k] in {Err(TooManyAttempts), Ok(Some(Conform(b, b.maxValue)))}
    decreases |calls|
  {
    if |calls| > 0 {
      LatchIsTerminal(corrected, b, calls[1..]);
      var run := ValueRun(corrected, b, calls);
      var rest := ValueRun(corrected, b, calls[1..]);
      forall k | 0 < k < |calls|
        ensures run.results[k] == rest.results[k - 1]
      {
      }
    }
  }

  /** A result at or above the maximum sets the latch. */
  lemma ReachingMaxLatches(b: Backoff, attempt: int, draw: JitterDraw)
    requires WellFormed(b)
    requires var s := Value(b, attempt, draw);
      s.result.Ok? && s.result.value.Some? && s.result.value.value >= b.maxValue
    ensures Latched(Value(b, attempt, draw).next)
  {
  }

  /** Once any call answers with a value at or above the maximum, every later
      call on that curve answers with exactly the conformed maximum (or the cap
      error). This holds for either guard. */
  lemma {:induction false} SaturationIsPermanent(corrected: bool, b: Backoff, calls: seq<ValueCall>, i: nat)
    requires WellFormed(b)
    requires i < |calls|
    requires var r := ValueRun(corrected, b, calls).results[i];
      r.Ok? && r.value.Some? && r.value.value >= b.maxValue
    ensures forall k :: i < k < |calls| ==>
      ValueRun(corrected, b, calls).results[k] in {Err(TooManyAttempts), Ok(Some(Conform(b, b.maxValue)))}
    decreases i
  {
    var s := ValueWith(corrected, b, calls[0].attempt, calls[0].draw);
    var rest := ValueRun(corrected, s.next, calls[1..]);
    var run := ValueRun(corrected, b, calls);
    assert forall k :: 0 < k < |calls| ==> run.results[k] == rest.results[k - 1];
    assert s.next.minValue == b.minValue && s.next.maxValue == b.maxValue;
    assert WellFormed(s.next);
    assert Conform(s.next, s.next.maxValue) == Conform(b, b.maxValue);
    if i == 0 {
      assert s == Value(b, calls[0].attempt, calls[0].draw);
      ReachingMaxLatches(b, calls[0].attempt, calls[0].draw);
      LatchIsTerminal(corrected, s.next, calls[1..]);
    } else {
      SaturationIsPermanent(corrected, s.next, calls[1..], i - 1);
    }
  }

  /** The raw curve never decreases from attempt 1 on. */
  predicate CurveNonDecreasing(b: Backoff) {
    forall i, j :: 1 <= i <= j < |b.logspace| ==> b.logspace[i] <= b.logspace[j]
  }

  /** On a non-decreasing curve, two successive calls whose raw values are at
      or below the jitter threshold answer in attempt order, whether or not the
      first call sets the latch. */
  lemma SuccessiveValuesNonDecreasing(b: Backoff, a1: int, a2: int, d1: JitterDraw, d2: JitterDraw)
    requires WellFormed(b) && CurveNonDecreasing(b)
    requires 1 <= a1 <= a2 < |b.logspace| && a2 <= MaxAttempts
    requires b.logspace[a1] != 0.0 && b.logspace[a2] != 0.0
    requires b.logspace[a2] <= JitterTopLim
    ensures var s1 := Value(b, a1, d1);
      var s2 := Value(s1.next, a2, d2);
      && s1.result.Ok? && s1.result.value.Some?
      && s2.result.Ok? && s2.result.value.Some?
      && s1.result.value.value <= s2.result.value.value
  {
    var s1 := Value(b, a1, d1);
    var r1 := s1.result.value.value;
    if Latched(b) {
      assert s1.next == b;
    } else {
      ClampMonotone(b.minValue, b.maxValue, b.logspace[a1], b.logspace[a2]);
      Round3Monotone(Clamp(b.minValue, b.maxValue, b.logspace[a1]), Clamp(b.minValue, b.maxValue, b.logspace[a2]));
      if Latched(s1.next) {
        assert r1 <= Round3(b.maxValue);
        assert Clamp(b.minValue, b.maxValue, b.maxValue) == b.maxValue;
      }
    }
  }

  /** The draws `precomp_v` makes: `randint(2, 4)` for a zero attempt, the
      position `choice` picks in the pool (a position past the end stands for
      the last one), and
      `rand_factor()`, the ratio `uniform(1, e) / uniform(1, pi)`. */
  datatype PoolDraw = PoolDraw(substitute: int, pick: nat, factor: real)

  /** Python list indexing: `-size <= i < 0` counts from the end. */
  function ListIndex(i: int, size: nat): (r: Option<nat>)
    ensures r.Some? <==> 0 <= i + size && i < size
    ensures r.Some? ==> r.value < size
    ensures r.Some? && i >= 0 ==> r.value == i
    ensures r.Some? && i < 0 ==> r.value == size + i
  {
    if 0 <= i < size then Some(i)
    else if 0 <= i + size && i < 0 then Some(size + i)
    else None
  }

  /** The attempt `precomp_v` looks up: a falsy (zero) attempt is replaced by
      the `randint(2, 4)` draw. */
  function PoolAttempt(attempt: int, draw: PoolDraw): (a: int)
    requires 2 <= draw.substitute <= 4
    ensures attempt != 0 ==> a == attempt
    ensures attempt == 0 ==> 2 <= a <= 4
  {
    if attempt == 0 then draw.substitute else attempt
  }

  /** `choice(self.precomputed[attempt])`: the pool entry the draw picks. A
      position outside the table, or an empty pool, is an `IndexError`. */
  function PoolSample(pools: seq<seq<Option<real>>>, attempt: int, draw: PoolDraw): (r: Result<Option<real>, BackoffError>)
    ensures r.Ok? <==> ListIndex(attempt, |pools|).Some? && |pools[ListIndex(attempt, |pools|).value]| > 0
    ensures r.Ok? ==> r.value in pools[ListIndex(attempt, |pools|).value]
    ensures r.Err? ==> r.error == IndexError
  {
    match ListIndex(attempt, |pools|)
    case None => Err(IndexError)
    case Some(i) =>
      if |pools[i]| == 0 then Err(IndexError)
      else Ok(pools[i][if draw.pick < |pools[i]| then draw.pick else |pools[i]| - 1])
  }

  /** `result *= Backoff.rand_factor()` when jitter is asked for. */
  function Scaled(v: real, withJitter: bool, factor: real): real {
    if withJitter then v * factor else v
  }

  /** The tail of `precomp_v` after the pick: scale by `rand_factor()` when
      jitter is asked for, then conform to `[lo, hi]`. A `None` sample cannot
      be scaled or compared, a failed pick passes its error on. */
  function Finish(lo: real, hi: real, sample: Result<Option<real>, BackoffError>, withJitter: bool, factor: real): (r: Result<real, BackoffError>)
    ensures r.Ok? <==> sample.Ok? && sample.value.Some?
    ensures sample.Err? ==> r == Err(sample.error)
    ensures sample == Ok(None) ==> r == Err(TypeError)
    ensures r.Ok? && lo <= hi ==> Round3(lo) <= r.value <= Round3(hi)
    ensures r.Ok? && 0.001 <= lo <= hi ==> r.value >= 0.001
    ensures sample.Ok? && sample.value.Some? ==> r == Ok(ConformTo(lo, hi, Scaled(sample.value.value, withJitter, factor)))
  {
    match sample
    case Err(e) => Err(e)
    case Ok(None) => Err(TypeError)
    case Ok(Some(v)) => Ok(ConformTo(lo, hi, Scaled(v, withJitter, factor)))
  }

  /** `Backoff.precomp_v(attempt, with_jitter)`: a `None` attempt fails the cap
      comparison, an attempt above the cap is refused, and otherwise the
      answer is a conformed pool entry. The latch is neither read nor written:
      no curve is returned. */
  function PrecompV(b: Backoff, attempt: Option<int>, withJitter: bool, draw: PoolDraw): (r: Result<real, BackoffError>)
    requires 2 <= draw.substitute <= 4
    ensures attempt.None? ==> r == Err(TypeError)
    ensures attempt.Some? && attempt.value > MaxAttempts ==> r == Err(TooManyAttempts)
    ensures r.Ok? && b.minValue <= b.maxValue ==> Round3(b.minValue) <= r.value <= Round3(b.maxValue)
    ensures r.Ok? && WellFormed(b) ==> r.value >= 0.001
    ensures attempt.Some? && attempt.value <= MaxAttempts ==>
      (r.Err? && r.error == IndexError <==> PoolSample(b.precomputed, PoolAttempt(attempt.value, draw), draw).Err?)
    ensures attempt.Some? && attempt.value <= MaxAttempts ==>
      (r.Ok? <==> var p := PoolSample(b.precomputed, PoolAttempt(attempt.value, draw), draw); p.Ok? && p.value.Some?)
  {
    match attempt
    case None => Err(TypeError)
    case Some(a) =>
      if a > MaxAttempts then Err(TooManyAttempts)
      else Finish(b.minValue, b.maxValue, PoolSample(b.precomputed, PoolAttempt(a, draw), draw), withJitter, draw.factor)
  }

  /** A successful `precomp_v` answers with some member of the looked-up
      pool, put through the scale-and-conform tail. */
  lemma PrecompVDrawsFromPool(b: Backoff, attempt: int, withJitter: bool, draw: PoolDraw)
    requires 2 <= draw.substitute <= 4
    requires PrecompV(b, Some(attempt), withJitter, draw).Ok?
    ensures ListIndex(PoolAttempt(attempt, draw), |b.precomputed|).Some?
    ensures exists v ::
              && Some(v) in b.precomputed[ListIndex(PoolAttempt(attempt, draw), |b.precomputed|).value]
              && PrecompV(b, Some(attempt), withJitter, draw) == Finish(b.minValue, b.maxValue, Ok(Some(v)), withJitter, draw.factor)
  {
  }

  /** `precomp_v` gives the same answer whatever the latch holds. */
  lemma PrecompVIgnoresLatch(b: Backoff, latch: Option<real>, attempt: Option<int>, withJitter: bool, draw: PoolDraw)
    requires 2 <= draw.substitute <= 4
    ensures PrecompV(b.(lastValue := latch), attempt, withJitter, draw) == PrecompV(b, attempt, withJitter, draw)
  {
  }

  /** A zero attempt draws from the pool of the substituted attempt. */
  lemma PrecompVZeroSubstitutes(b: Backoff, withJitter: bool, draw: PoolDraw)
    requires 2 <= draw.substitute <= 4
    ensures PrecompV(b, Some(0), withJitter, draw) == PrecompV(b, Some(draw.substitute), withJitter, draw)
  {
  }

  /** A negative attempt is not refused: Python indexing reads it from the end
      of the pool table, so `-1` draws from the last pool. */
  lemma PrecompVNegativeReadsFromEnd(b: Backoff, withJitter: bool, draw: PoolDraw)
    requires 2 <= draw.substitute <= 4
    requires 2 <= |b.precomputed| <= MaxAttempts
    ensures PrecompV(b, Some(-1), withJitter, draw) == PrecompV(b, Some(|b.precomputed| - 1), withJitter, draw)
  {
  }

  /** `precomp_v(MAX_ATTEMPTS)` passes the `attempt > MAX_ATTEMPTS` guard and
      then looks one past the end of a table of `MAX_ATTEMPTS` pools. */
  lemma PrecompVAtCapIsIndexError(b: Backoff, withJitter: bool, draw: PoolDraw)
    requires 2 <= draw.substitute <= 4
    requires |b.precomputed| == MaxAttempts
    ensures PrecompV(b, Some(MaxAttempts), withJitter, draw) == Err(IndexError)
  {
  }

  /** `precomp_v` with the guard `attempt >= MAX_ATTEMPTS`. It differs from
      `PrecompV` only at `MAX_ATTEMPTS`, where it answers with the cap error. */
  function PrecompVCapped(b: Backoff, attempt: Option<int>, withJitter: bool, draw: PoolDraw): (r: Result<real, BackoffError>)
    requires 2 <= draw.substitute <= 4
    ensures attempt.Some? && attempt.value >= MaxAttempts ==> r == Err(TooManyAttempts)
    ensures attempt.Some? && 0 <= attempt.value && |b.precomputed| == MaxAttempts && r == Err(IndexError) ==>
      PoolAttempt(attempt.value, draw) < MaxAttempts && |b.precomputed[PoolAttempt(attempt.value, draw)]| == 0
    ensures attempt != Some(MaxAttempts) ==> r == PrecompV(b, attempt, withJitter, draw)
  {
    if attempt.Some? && attempt.value >= MaxAttempts then Err(TooManyAttempts)
    else PrecompV(b, attempt, withJitter, draw)
  }

  /** The minimum-delay floor of `delay_with_jitter`: a truthy `min_val` that
      the delay does not exceed is added in full when the delay is at most
      0.777 of it, and half of it otherwise. */
  function ApplyFloor(d: real, minVal: Option<real>): (r: real)
    ensures minVal.None? || minVal.value == 0.0 || d > minVal.value ==> r == d
    ensures minVal.Some? && minVal.value > 0.0 ==> d <= r <= d + minVal.value
    ensures minVal.Some? && minVal.value > 0.0 && d >= 0.0 ==> r >= minVal.value
    ensures minVal.Some? && minVal.value > 0.0 && d > 0.0 ==> r > minVal.value
    ensures minVal.Some? && minVal.value != 0.0 && d <= minVal.value && d <= minVal.value * 0.777 ==>
      r == d + minVal.value
    ensures minVal.Some? && minVal.value != 0.0 && minVal.value * 0.777 < d <= minVal.value ==>
      r == d + minVal.value / 2.0
  {
    match minVal
    case None => d
    case Some(m) =>
      if m != 0.0 && d <= m then
        if d <= m * 0.777 then d + m else d + m / 2.0
      else d
  }

  /** A positive delay that went through the floor is above it, so flooring
      again leaves it alone. */
  lemma ApplyFloorIdempotent(d: real, m: real)
    requires d > 0.0 && m > 0.0
    ensures ApplyFloor(ApplyFloor(d, Some(m)), Some(m)) == ApplyFloor(d, Some(m))
  {
  }

  /** The delay before the floor: a truthy delay grows by the reciprocal of
      the jitter, a falsy one (`None` or zero) is replaced by the jitter. */
  function JitteredDelay(delay: Option<real>, jitter: real): (r: Result<real, BackoffError>)
    ensures r.Err? <==> delay.Some? && delay.value != 0.0 && jitter == 0.0
    ensures r.Err? ==> r.error == ZeroDivision
    ensures r.Ok? && (delay.None? || delay.value == 0.0) ==> r.value == jitter
    ensures r.Ok? && delay.Some? && delay.value != 0.0 && jitter > 0.0 ==> r.value > delay.value
    ensures r.Ok? && delay.Some? && delay.value != 0.0 ==> r.value - delay.value == 1.0 / jitter
  {
    match delay
    case Some(d) =>
      if d != 0.0 then
        if jitter == 0.0 then Err(ZeroDivision) else Ok(d + 1.0 / jitter)
      else Ok(jitter)
    case None => Ok(jitter)
  }

  /** `delay_with_jitter(delay, min_val)`, with `bo` standing for the module's
      shared `Backoff`: draw a jitter with `precomp_v(0, with_jitter=True)`
      (a zero attempt passes the cap guard and is replaced by the `randint` draw), fold it into the
      delay, then apply the minimum-delay floor. */
  function DelayWithJitter(bo: Backoff, delay: Option<real>, minVal: Option<real>, draw: PoolDraw): (r: Result<real, BackoffError>)
    requires 2 <= draw.substitute <= 4
    ensures PrecompV(bo, Some(0), true, draw).Err? ==> r == Err(PrecompV(bo, Some(0), true, draw).error)
    ensures r.Ok? ==> PrecompV(bo, Some(0), true, draw).Ok?
    ensures r.Ok? ==> var j := PrecompV(bo, Some(0), true, draw).value;
      JitteredDelay(delay, j).Ok? && r.value == ApplyFloor(JitteredDelay(delay, j).value, minVal)
    ensures PrecompV(bo, Some(0), true, draw).Ok? ==>
      (r.Err? <==> JitteredDelay(delay, PrecompV(bo, Some(0), true, draw).value).Err?)
  {
    match PrecompV(bo, Some(0), true, draw)
    case Err(e) => Err(e)
    case Ok(jitter) =>
      match JitteredDelay(delay, jitter)
      case Err(e) => Err(e)
      case Ok(d) => Ok(ApplyFloor(d, minVal))
  }

  /** With a well-formed curve the jitter is at least 0.001, so the division
      cannot fail; a non-negative delay then ends strictly above a positive
      minimum, and a positive delay only grows. */
  lemma DelayWithJitterAboveFloor(bo: Backoff, delay: Option<real>, minVal: Option<real>, draw: PoolDraw)
    requires 2 <= draw.substitute <= 4
    requires WellFormed(bo)
    requires delay.None? || delay.value >= 0.0
    ensures DelayWithJitter(bo, delay, minVal, draw).Ok? <==> PrecompV(bo, Some(0), true, draw).Ok?
    ensures DelayWithJitter(bo, delay, minVal, draw).Ok? && minVal.Some? && minVal.value > 0.0 ==>
      DelayWithJitter(bo, delay, minVal, draw).value > minVal.value
    ensures DelayWithJitter(bo, delay, minVal, draw).Ok? && delay.Some? ==>
      DelayWithJitter(bo, delay, minVal, draw).value > delay.value
  {
  }
}

=== FILE: generator_utils.dfy ===
/** `snake_to_camel_case` of `telethon_generator/utils.py`: the substitution
    `re.sub(r'_([a-z])', upper)` as a left-to-right scan, followed by
    upper-casing the first character and deleting every later underscore. */
module GeneratorUtils {

  /** The class `[a-z]` of the pattern. */
  predicate IsLower(c: char) {
    'a' <= c <= 'z'
  }

  predicate IsAscii(c: char) {
    c < 128 as char
  }

  /** `str.upper` on one ASCII character. */
  function UpperChar(c: char): (u: char)
    ensures IsAscii(c) ==> IsAscii(u)
    ensures !IsLower(u)
    ensures !IsLower(c) ==> u == c
    ensures IsLower(c) ==> 'A' <= u <= 'Z' && u as int == c as int - 32
  {
    if IsLower(c) then (c as int - 32) as char else c
  }

  /** A match of `_([a-z])` starts at `i`. */
  predicate MatchAt(s: string, i: int) {
    0 <= i && i + 1 < |s| && s[i] == '_' && IsLower(s[i + 1])
  }

  /** No match of `_([a-z])` anywhere in `s`. */
  predicate NoMatch(s: string) {
    forall i :: 0 <= i < |s| ==> !MatchAt(s, i)
  }

  /** The substitution as the regex engine performs it: scanning from the
      left, a match is replaced by its upper-cased letter and the scan resumes
      after it; any other character is copied. */
  function Sub(s: string): (r: string)
    ensures |r| <= |s|
    ensures |r| == 0 <==> |s| == 0
    decreases |s|
  {
    if |s| == 0 then []
    else if MatchAt(s, 0) then [UpperChar(s[1])] + Sub(s[2..])
    else [s[0]] + Sub(s[1..])
  }

  /** What position `i` of the input contributes to the output, judged from
      its neighbours alone: the `_` of a match disappears, the letter of a
      match is upper-cased, anything else stays. Matches cannot overlap,
      because their second character is never `_`. */
  function PieceAt(s: string, i: nat): string
    requires i < |s|
  {
    if MatchAt(s, i) then []
    else if MatchAt(s, i - 1) then [UpperChar(s[i])]
    else [s[i]]
  }

  /** The pieces of the positions `i` to the end, in order. */
  function Pieces(s: string, i: nat): string
    requires i <= |s|
    decreases |s| - i
  {
    if i == |s| then [] else PieceAt(s, i) + Pieces(s, i + 1)
  }

  /** The number of matches starting at positions `i` to the end. */
  function CountMatches(s: string, i: nat): nat
    requires i <= |s|
    decreases |s| - i
  {
    if i == |s| then 0 else (if MatchAt(s, i) then 1 else 0) + CountMatches(s, i + 1)
  }

  /** The pointwise description loses one character per match. */
  lemma {:induction false} PiecesLength(s: string, i: nat)
    requires i <= |s|
    ensures |Pieces(s, i)| == |s| - i - CountMatches(s, i)
    decreases |s| - i
  {
    if i < |s| {
      PiecesLength(s, i + 1);
    }
  }

  /** The scan from any position it can reach (the start, or a position that
      is not the letter of a match) agrees with the pointwise description. */
  lemma {:induction false} SubFrom(s: string, i: nat)
    requires i <= |s|
    requires !MatchAt(s, i - 1)
    ensures Sub(s[i..]) == Pieces(s, i)
    decreases |s| - i
  {
    if i < |s| {
      var t := s[i..];
      assert MatchAt(t, 0) <==> MatchAt(s, i);
      if MatchAt(s, i) {
        assert t[2..] == s[i + 2..];
        assert t[1] == s[i + 1];
        SubFrom(s, i + 2);
        assert Pieces(s, i) == [] + ([UpperChar(s[i + 1])] + Pieces(s, i + 2));
      } else {
        assert t[1..] == s[i + 1..];
        SubFrom(s, i + 1);
      }
    }
  }

  /** The left-to-right scan replaces exactly the positions the pointwise
      description picks out, and the output is one character shorter per
      match. */
  lemma SubIsPointwise(s: string)
    ensures Sub(s) == Pieces(s, 0)
    ensures |Sub(s)| == |s| - CountMatches(s, 0)
  {
    assert s[0..] == s;
    SubFrom(s, 0);
    PiecesLength(s, 0);
  }

  /** Text without a match passes through the substitution unchanged. */
  lemma {:induction false} SubOfNoMatch(s: string)
    requires NoMatch(s)
    ensures Sub(s) == s
    decreases |s|
  {
    if |s| > 0 {
      assert !MatchAt(s, 0);
      assert NoMatch(s[1..]) by {
        forall i | 0 <= i < |s[1..]|
          ensures !MatchAt(s[1..], i)
        {
          assert !MatchAt(s, i + 1);
        }
      }
      SubOfNoMatch(s[1..]);
    }
  }

  /** The first character of `Sub(s)`. */
  lemma SubHead(s: string)
    requires |s| > 0
    ensures MatchAt(s, 0) ==> Sub(s)[0] == UpperChar(s[1])
    ensures !MatchAt(s, 0) ==> Sub(s)[0] == s[0]
  {
  }

  /** The substitution leaves no match behind: an underscore it keeps is not
      followed by a lower-case letter. */
  lemma {:induction false} SubHasNoMatch(s: string)
    ensures NoMatch(Sub(s))
    decreases |s|
  {
    if |s| > 0 {
      var r := Sub(s);
      if MatchAt(s, 0) {
        SubHasNoMatch(s[2..]);
        var tail := Sub(s[2..]);
        assert r == [UpperChar(s[1])] + tail;
        forall i | 0 <= i < |r|
          ensures !MatchAt(r, i)
        {
          if i > 0 {
            assert !MatchAt(tail, i - 1);
          }
        }
      } else {
        SubHasNoMatch(s[1..]);
        var tail := Sub(s[1..]);
        assert r == [s[0]] + tail;
        forall i | 0 <= i < |r|
          ensures !MatchAt(r, i)
        {
          if i > 0 {
            assert !MatchAt(tail, i - 1);
          } else if |tail| > 0 && s[0] == '_' {
            SubHead(s[1..]);
            assert !IsLower(tail[0]);
          }
        }
      }
    }
  }

  /** Substituting twice is substituting once. */
  lemma SubIdempotent(s: string)
    ensures Sub(Sub(s)) == Sub(s)
  {
  }

  /** `str.replace('_', '')`. */
  function RemoveUnderscores(s: string): (r: string)
    ensures '_' !in r
    ensures |r| <= |s|
    ensures '_' !in s ==> r == s
    ensures forall c :: c in r ==> c in s
  {
    if |s| == 0 then []
    else if s[0] == '_' then RemoveUnderscores(s[1..])
    else [s[0]] + RemoveUnderscores(s[1..])
  }

  /** The number of underscores in `s`. */
  function CountUnderscores(s: string): nat {
    if |s| == 0 then 0 else (if s[0] == '_' then 1 else 0) + CountUnderscores(s[1..])
  }

  /** Removing underscores shortens the text by exactly their number. */
  lemma {:induction false} RemoveUnderscoresLength(s: string)
    ensures |RemoveUnderscores(s)| == |s| - CountUnderscores(s)
  {
    if |s| > 0 {
      RemoveUnderscoresLength(s[1..]);
    }
  }

  /** Removing underscores works piece by piece: the kept characters of `a`
      come first, then those of `b`. */
  lemma {:induction false} RemoveUnderscoresAppend(a: string, b: string)
    ensures RemoveUnderscores(a + b) == RemoveUnderscores(a) + RemoveUnderscores(b)
    decreases |a|
  {
    if |a| == 0 {
      assert a + b == b;
    } else {
      assert (a + b)[1..] == a[1..] + b;
      RemoveUnderscoresAppend(a[1..], b);
    }
  }

  /** Every character other than `_` is kept, in order: the one at position
      `i` moves left by the number of underscores before it. */
  lemma RemoveUnderscoresKeepsOrder(s: string, i: nat)
    requires i < |s| && s[i] != '_'
    ensures 0 <= i - CountUnderscores(s[..i]) < |RemoveUnderscores(s)|
    ensures RemoveUnderscores(s)[i - CountUnderscores(s[..i])] == s[i]
  {
    assert s == s[..i] + s[i..];
    RemoveUnderscoresAppend(s[..i], s[i..]);
    RemoveUnderscoresLength(s[..i]);
    assert RemoveUnderscores(s[i..]) == [s[i]] + RemoveUnderscores(s[i + 1..]);
  }

  /** After a kept underscore of substituted text, the next character that is
      not an underscore is not a lower-case letter. */
  lemma {:induction false} KeptAfterUnderscore(t: string)
    requires NoMatch(t)
    requires |t| > 0 && t[0] == '_'
    ensures |RemoveUnderscores(t[1..])| > 0 ==> !IsLower(RemoveUnderscores(t[1..])[0])
    decreases |t|
  {
    var u := t[1..];
    if |u| > 0 {
      assert !MatchAt(t, 0);
      if u[0] == '_' {
        assert NoMatch(u) by {
          forall i | 0 <= i < |u|
            ensures !MatchAt(u, i)
          {
            assert !MatchAt(t, i + 1);
          }
        }
        assert u[1..] == t[2..];
        KeptAfterUnderscore(u);
      }
    }
  }

  /** `snake_to_camel_case(name)`: substitute, then upper-case the first
      character and delete every underscore after it. Python's `str.upper`
      is modelled on ASCII only, which is what the first character must be. */
  function SnakeToCamel(s: string): (r: string)
    requires |s| == 0 || IsAscii(s[0])
    ensures |r| == 0 <==> |s| == 0
    ensures |r| <= |s|
    ensures forall i :: 1 <= i < |r| ==> r[i] != '_'
  {
    var sub := Sub(s);
    if |sub| == 0 then []
    else [UpperChar(sub[0])] + RemoveUnderscores(sub[1..])
  }

  /** The first output character is the upper-cased first character of the
      substituted text; the rest is the substituted text without underscores,
      which makes the output shorter by one per match and one per later
      underscore. */
  lemma SnakeToCamelShape(s: string)
    requires |s| > 0 && IsAscii(s[0])
    ensures SnakeToCamel(s)[0] == UpperChar(Sub(s)[0])
    ensures SnakeToCamel(s)[1..] == RemoveUnderscores(Sub(s)[1..])
    ensures |SnakeToCamel(s)| == |s| - CountMatches(s, 0) - CountUnderscores(Sub(s)[1..])
  {
    SubIsPointwise(s);
    RemoveUnderscoresLength(Sub(s)[1..]);
  }

  /** A name without underscores only has its first character upper-cased. */
  lemma SnakeToCamelNoUnderscore(s: string)
    requires |s| > 0 && IsAscii(s[0])
    requires '_' !in s
    ensures SnakeToCamel(s) == [UpperChar(s[0])] + s[1..]
  {
    assert NoMatch(s) by {
      forall i | 0 <= i < |s|
        ensures !MatchAt(s, i)
      {
        assert s[i] in s;
      }
    }
    SubOfNoMatch(s);
    assert '_' !in s[1..] by {
      forall c | c in s[1..]
        ensures c != '_'
      {
        assert c in s;
      }
    }
  }

  /** The output of `snake_to_camel_case` is a fixed point of it. */
  lemma SnakeToCamelIdempotent(s: string)
    requires |s| > 0 && IsAscii(s[0])
    ensures SnakeToCamel(SnakeToCamel(s)) == SnakeToCamel(s)
  {
    var sub := Sub(s);
    var r := SnakeToCamel(s);
    var rest := RemoveUnderscores(sub[1..]);
    assert r == [UpperChar(sub[0])] + rest;
    SubHead(s);
    assert IsAscii(r[0]);
    SubHasNoMatch(s);
    assert NoMatch(r) by {
      forall i | 0 <= i < |r|
        ensures !MatchAt(r, i)
      {
        if i == 0 && |r| > 1 && r[0] == '_' {
          assert sub[0] == '_';
          KeptAfterUnderscore(sub);
          assert r[1] == rest[0];
        }
      }
    }
    SubOfNoMatch(r);
    assert r[1..] == rest;
  }

  /** An underscore run before a letter: only the last underscore belongs to
      the match, and the first one survives as the leading character. */
  lemma SnakeToCamelUnderscoreRun()
    ensures Sub("__a") == "_A"
    ensures SnakeToCamel("__a") == "_A"
  {
    assert !MatchAt("__a", 0);
    assert "__a"[1..] == "_a";
    assert MatchAt("_a", 0);
    assert "_a"[2..] == "";
  }

  /** A prefix without underscores is copied, and the scan resumes at its end. */
  lemma {:induction false} SubUnderscoreFreePrefix(p: string, t: string)
    requires '_' !in p
    ensures Sub(p + t) == p + Sub(t)
    decreases |p|
  {
    if |p| > 0 {
      assert p[0] in p;
      assert !MatchAt(p + t, 0);
      assert (p + t)[1..] == p[1..] + t;
      assert '_' !in p[1..] by {
        forall c | c in p[1..]
          ensures c != '_'
        {
          assert c in p;
        }
      }
      SubUnderscoreFreePrefix(p[1..], t);
      assert Sub(p + t) == [p[0]] + Sub(p[1..] + t);
      assert p == [p[0]] + p[1..];
    } else {
      assert p + t == t;
    }
  }

  /** The substitution on a typical name: `_i` becomes `I`. */
  lemma SubOfMessageId(s: string)
    requires s == "message_id"
    ensures Sub(s) == "messageId"
  {
    var p, t := "message", "_id";
    assert s == p + t;
    assert '_' !in p;
    SubUnderscoreFreePrefix(p, t);
    assert MatchAt(t, 0);
    assert t[2..] == "d";
    assert Sub("d") == "d";
  }

  /** When the substituted text keeps no underscore after its first
      character, the conversion only upper-cases that character. */
  lemma SnakeToCamelOfCleanSub(s: string)
    requires |s| > 0 && IsAscii(s[0])
    requires '_' !in Sub(s)[1..]
    ensures SnakeToCamel(s) == [UpperChar(Sub(s)[0])] + Sub(s)[1..]
  {
  }

  /** A typical name. */
  lemma SnakeToCamelMessageId(s: string)
    requires s == "message_id"
    ensures SnakeToCamel(s) == "MessageId"
  {
    SubOfMessageId(s);
    var sub: string := "messageId";
    assert sub[0] == 'm' && sub[1..] == "essageId";
    assert '_' !in sub[1..];
    SnakeToCamelOfCleanSub(s);
    assert UpperChar('m') == 'M';
    assert ['M'] + "essageId" == "MessageId";
  }
}

=== FILE: rate_limiters.dfy ===
/** The sliding-window rate limiter of `telethon/rate_limiters.py`.

    A limiter keeps the timestamps of recent calls in a queue, oldest first.
    Entering the limiter computes how long the caller has to wait before the
    call may run; leaving it records the current time and trims entries that
    have fallen out of the window. The clock reading `now` is an argument and
    the wait is returned instead of slept. */
module RateLimiters {
  import opened Results
  import opened Rounding

  /** `RateLimiter.MIN_WINDOW_SIZE_SEC`, the default window. */
  const MinWindowSizeSec: real := 1.017
  /** `RateLimiter.MIN_BURST_LIMIT`, the smallest effective burst limit and the default. */
  const MinBurstLimit: real := 1.0
  /** Waits at or below this many seconds are skipped by the enter paths. */
  const SleepThreshold: real := 0.0001

  /** The exceptions the modelled code raises. */
  datatype LimiterError =
    | TypeError   // a `None` burst limit or window reaches `math.floor` or `float`
    | NoQueue     // a disabled limiter has no queue, so entering or leaving it fails

  /** A limiter. `calls` is `None` exactly when the limiter is disabled: the
      constructor then returns before the queue is created. */
  datatype RateLimiter = RateLimiter(maxBurstLimit: int, windowSizeSec: real, calls: Option<seq<real>>)
  {
    predicate Disabled() {
      calls.None?
    }
  }

  /** What every limiter the constructor builds satisfies and every exit keeps. */
  predicate Valid(lim: RateLimiter) {
    && lim.maxBurstLimit >= 1
    && (lim.calls.Some? <==> lim.windowSizeSec > 0.0)
  }

  /** Entries are in ascending order. */
  predicate Sorted(q: seq<real>) {
    forall i, j :: 0 <= i <= j < |q| ==> q[i] <= q[j]
  }

  /** `a` is what remains of `b` after removing some entries from its front. */
  predicate IsSuffix(a: seq<real>, b: seq<real>) {
    |a| <= |b| && a == b[|b| - |a|..]
  }

  /** `max(floor(burst_limit) - 1, MIN_BURST_LIMIT)` as an integer. */
  function NormalizeBurstLimit(burstLimit: real): (m: int)
    ensures m >= 1
    ensures burstLimit >= 2.0 ==> m as real + 1.0 <= burstLimit < m as real + 2.0
    ensures burstLimit < 3.0 ==> m == 1
  {
    var floored := burstLimit.Floor - 1;
    if floored as real >= MinBurstLimit then floored else MinBurstLimit.Floor
  }

  /** `RateLimiter.__init__`. A missing burst limit or window raises `TypeError`;
      a window of zero or less yields a disabled limiter without a queue;
      otherwise the queue starts empty. */
  function NewRateLimiter(burstLimit: Option<real>, windowSizeSec: Option<real>): (r: Result<RateLimiter, LimiterError>)
    ensures r.Err? <==> burstLimit.None? || windowSizeSec.None?
    ensures r.Err? ==> r.error == TypeError
    ensures r.Ok? ==> Valid(r.value)
    ensures r.Ok? ==> r.value.windowSizeSec == windowSizeSec.value
    ensures r.Ok? ==> r.value.maxBurstLimit == NormalizeBurstLimit(burstLimit.value)
    ensures r.Ok? ==> (r.value.Disabled() <==> windowSizeSec.value <= 0.0)
    ensures r.Ok? && !r.value.Disabled() ==> r.value.calls == Some([])
  {
    match burstLimit
    case None => Err(TypeError)
    case Some(b) =>
      var maxBurstLimit := NormalizeBurstLimit(b);
      match windowSizeSec
      case None => Err(TypeError)
      case Some(w) =>
        if w <= 0.0 then Ok(RateLimiter(maxBurstLimit, w, None))
        else Ok(RateLimiter(maxBurstLimit, w, Some([])))
  }

  /** `RateLimiter()` with the default arguments. */
  function DefaultRateLimiter(): Result<RateLimiter, LimiterError> {
    NewRateLimiter(Some(MinBurstLimit), Some(MinWindowSizeSec))
  }

  /** The normalisation on the presets' limits and on small and fractional requests. */
  lemma NormalizeBurstLimitExamples()
    ensures NormalizeBurstLimit(30.0) == 29
    ensures NormalizeBurstLimit(20.0) == 19
    ensures NormalizeBurstLimit(1.0) == 1
    ensures NormalizeBurstLimit(0.0) == 1
    ensures NormalizeBurstLimit(2.9) == 1
    ensures NormalizeBurstLimit(3.5) == 2
  {
  }

  /** The default limiter admits one call per 1.017-second window. */
  lemma DefaultRateLimiterShape()
    ensures DefaultRateLimiter() == Ok(RateLimiter(1, 1.017, Some([])))
  {
  }

  /** The body of the `while` in `exit_shared`: pop from the front while the
      span from the first to the last entry is at least the window. The last
      entry is never popped, and the first entry kept is the first one within
      the window of the last. */
  function TrimFront(q: seq<real>, window: real): (t: seq<real>)
    requires |q| > 0
    requires window > 0.0
    ensures |t| > 0 && IsSuffix(t, q)
    ensures t[|t| - 1] - t[0] < window
    ensures forall j :: 0 <= j < |q| - |t| ==> q[|q| - 1] - q[j] >= window
    decreases |q|
  {
    if q[|q| - 1] - q[0] >= window then
      var t := TrimFront(q[1..], window);
      assert forall j :: 1 <= j < |q| - |t| ==> q[j] == q[1..][j - 1];
      t
    else
      q
  }

  /** `t` is what popping from the front of `a` leaves when every entry
      popped lies a window or more before the last one. */
  predicate TrimmedFrom(t: seq<real>, a: seq<real>, window: real) {
    && |a| > 0
    && IsSuffix(t, a)
    && forall j :: 0 <= j < |a| - |t| ==> a[|a| - 1] - a[j] >= window
  }

  /** The queue of `exit_shared` before the trim: cleared when its newest
      entry is a window or more before `now`, then extended by `round(now, 4)`. */
  function Recorded(q: seq<real>, window: real, now: real): (a: seq<real>)
    ensures |a| > 0 && Last(a) == Round4(now)
  {
    (if |q| > 0 && now - window >= q[|q| - 1] then [] else q) + [Round4(now)]
  }

  /** `exit_shared(now)`: clear an idle queue, append `round(now, 4)`, trim the front.
      The trim removes exactly the entries at least a window older than the
      new timestamp, oldest first: what stays spans less than the window. */
  function ExitShared(lim: RateLimiter, now: real): (r: Result<RateLimiter, LimiterError>)
    requires Valid(lim)
    ensures r.Err? <==> lim.Disabled()
    ensures r.Err? ==> r.error == NoQueue
    ensures r.Ok? ==> Valid(r.value) && !r.value.Disabled()
    ensures r.Ok? ==> r.value.maxBurstLimit == lim.maxBurstLimit && r.value.windowSizeSec == lim.windowSizeSec
    ensures r.Ok? ==> var q' := r.value.calls.value;
      && |q'| > 0
      && q'[|q'| - 1] == Round4(now)
      && q'[|q'| - 1] - q'[0] < lim.windowSizeSec
    ensures r.Ok? ==> var q, q' := lim.calls.value, r.value.calls.value;
      if |q| > 0 && now - lim.windowSizeSec >= q[|q| - 1] then q' == [Round4(now)]
      else IsSuffix(q', q + [Round4(now)])
    ensures r.Ok? ==> TrimmedFrom(r.value.calls.value, Recorded(lim.calls.value, lim.windowSizeSec, now), lim.windowSizeSec)
  {
    match lim.calls
    case None => Err(NoQueue)
    case Some(q) =>
      var a := Recorded(q, lim.windowSizeSec, now);
      var t := TrimFront(a, lim.windowSizeSec);
      Ok(lim.(calls := Some(t)))
  }

  /** `sleep_seconds`: the time left until the oldest entry leaves the window,
      rounded to four places and capped at the window. Only reached with a
      non-empty queue. */
  function SleepSeconds(q: seq<real>, window: real): (w: real)
    requires |q| > 0
    ensures w <= window
    ensures w >= window - (q[|q| - 1] - q[0]) - 0.00005 || w == window
    ensures w <= window - (q[|q| - 1] - q[0]) + 0.00005
    ensures window >= 0.0 && q[|q| - 1] - q[0] < window ==> w >= 0.0
  {
    var remaining := window + q[0] - q[|q| - 1];
    var rounded := Round4(remaining);
    assert remaining > 0.0 ==> rounded >= 0.0 by {
      if remaining > 0.0 {
        Round4NonNegative(remaining);
      }
    }
    if rounded <= window then rounded else window
  }

  /** The decision both `__enter__` and `__aenter__` take under their lock:
      the wait in seconds before the guarded call runs, or 0. The queue is
      only read. */
  function Admission(lim: RateLimiter): (r: Result<real, LimiterError>)
    requires Valid(lim)
    ensures r.Err? <==> lim.Disabled()
    ensures r.Err? ==> r.error == NoQueue
    ensures r.Ok? ==> r.value == 0.0 || SleepThreshold < r.value <= lim.windowSizeSec
    ensures r.Ok? ==> (r.value > 0.0 <==>
      |lim.calls.value| >= lim.maxBurstLimit
      && SleepSeconds(lim.calls.value, lim.windowSizeSec) > SleepThreshold)
    ensures r.Ok? && r.value > 0.0 ==> r.value == SleepSeconds(lim.calls.value, lim.windowSizeSec)
  {
    match lim.calls
    case None => Err(NoQueue)
    case Some(q) =>
      if |q| >= lim.maxBurstLimit then
        var s := SleepSeconds(q, lim.windowSizeSec);
        if s > SleepThreshold then Ok(s) else Ok(0.0)
      else
        Ok(0.0)
  }

  /** Leave the limiter once per clock reading in `nows`, in order. */
  function ExitAll(lim: RateLimiter, nows: seq<real>): (r: Result<RateLimiter, LimiterError>)
    requires Valid(lim)
    ensures r.Err? <==> lim.Disabled() && |nows| > 0
    ensures r.Ok? ==> Valid(r.value) && r.value.Disabled() == lim.Disabled()
    ensures r.Ok? ==> r.value.maxBurstLimit == lim.maxBurstLimit && r.value.windowSizeSec == lim.windowSizeSec
    decreases |nows|
  {
    if |nows| == 0 then Ok(lim)
    else
      match ExitShared(lim, nows[0])
      case Err(e) => Err(e)
      case Ok(next) => ExitAll(next, nows[1..])
  }

  /** A run of exits on an enabled limiter is its first exit, then the rest. */
  lemma ExitAllStep(lim: RateLimiter, nows: seq<real>)
    requires Valid(lim) && !lim.Disabled() && |nows| > 0
    ensures ExitShared(lim, nows[0]).Ok?
    ensures ExitAll(lim, nows) == ExitAll(ExitShared(lim, nows[0]).value, nows[1..])
  {
  }

  /** The state `exit_shared` leaves behind when the clock does not go back:
      an enabled limiter whose queue is ascending and spans less than the window. */
  predicate Settled(lim: RateLimiter) {
    && Valid(lim)
    && !lim.Disabled()
    && Sorted(lim.calls.value)
    && (|lim.calls.value| > 0 ==> Last(lim.calls.value) - lim.calls.value[0] < lim.windowSizeSec)
  }

  function Last(q: seq<real>): real
    requires |q| > 0
  {
    q[|q| - 1]
  }

  /** Appending a value no smaller than the last entry keeps a queue sorted. */
  lemma SortedAppend(q: seq<real>, x: real)
    requires Sorted(q)
    requires |q| > 0 ==> Last(q) <= x
    ensures Sorted(q + [x])
  {
  }

  /** Removing entries from the front keeps a queue sorted. */
  lemma SortedSuffix(a: seq<real>, b: seq<real>)
    requires Sorted(b)
    requires IsSuffix(a, b)
    ensures Sorted(a)
  {
  }

  /** Leaving a settled limiter at a reading whose rounding is not older than
      the newest entry leaves it settled, and every surviving entry lies less
      than one window before the new one. */
  lemma ExitKeepsSettled(lim: RateLimiter, now: real)
    requires Settled(lim)
    requires |lim.calls.value| > 0 ==> Last(lim.calls.value) <= Round4(now)
    ensures ExitShared(lim, now).Ok?
    ensures Settled(ExitShared(lim, now).value)
    ensures var q' := ExitShared(lim, now).value.calls.value;
      forall k :: 0 <= k < |q'| ==> 0.0 <= Round4(now) - q'[k] < lim.windowSizeSec
  {
    var q := lim.calls.value;
    var r := ExitShared(lim, now);
    var q' := r.value.calls.value;
    var kept := if |q| > 0 && now - lim.windowSizeSec >= q[|q| - 1] then [] else q;
    var appended := Recorded(q, lim.windowSizeSec, now);
    assert appended == kept + [Round4(now)];
    assert q' == TrimFront(appended, lim.windowSizeSec);
    SortedAppend(kept, Round4(now));
    SortedSuffix(q', appended);
    assert Last(q') == Round4(now) && Last(q') - q'[0] < lim.windowSizeSec;
    assert Settled(r.value);
    forall k | 0 <= k < |q'|
      ensures 0.0 <= Round4(now) - q'[k] < lim.windowSizeSec
    {
      assert q'[0] <= q'[k] <= q'[|q'| - 1];
    }
  }

  /** A run of exits at non-decreasing clock readings keeps a limiter settled,
      and the newest entry is then the last reading, rounded. */
  lemma {:induction false} ExitAllKeepsSettled(lim: RateLimiter, nows: seq<real>)
    requires Settled(lim)
    requires Sorted(nows)
    requires |nows| > 0 && |lim.calls.value| > 0 ==> Last(lim.calls.value) <= Round4(nows[0])
    ensures ExitAll(lim, nows).Ok?
    ensures Settled(ExitAll(lim, nows).value)
    ensures |nows| > 0 ==> var q' := ExitAll(lim, nows).value.calls.value;
      |q'| > 0 && Last(q') == Round4(Last(nows))
    decreases |nows|
  {
    if |nows| > 0 {
      ExitKeepsSettled(lim, nows[0]);
      var next := ExitShared(lim, nows[0]).value;
      assert ExitAll(lim, nows) == ExitAll(next, nows[1..]);
      var rest := nows[1..];
      if |rest| > 0 {
        Round4Monotone(nows[0], rest[0]);
        SortedSuffix(rest, nows);
        ExitAllKeepsSettled(next, rest);
        assert Last(rest) == Last(nows);
      } else {
        assert ExitAll(next, rest) == Ok(next);
      }
    }
  }

  /** Every entry of `q` equals `x`. */
  predicate AllAt(q: seq<real>, x: real) {
    forall i :: 0 <= i < |q| ==> q[i] == x
  }

  /** One exit at the instant every queued entry already holds appends one more entry. */
  lemma ExitAtOneInstant(lim: RateLimiter, now: real)
    requires Valid(lim) && lim.calls.Some? && AllAt(lim.calls.value, Round4(now))
    requires lim.windowSizeSec > SleepThreshold
    ensures ExitShared(lim, now).Ok?
    ensures var q' := ExitShared(lim, now).value.calls.value;
      |q'| == |lim.calls.value| + 1 && AllAt(q', Round4(now))
  {
    var q := lim.calls.value;
    assert now - lim.windowSizeSec < Round4(now);
    var a := Recorded(q, lim.windowSizeSec, now);
    assert a == q + [Round4(now)];
    assert AllAt(a, Round4(now));
    assert TrimFront(a, lim.windowSizeSec) == a;
  }

  /** Leaving `m` times at one clock reading only grows the queue: nothing is
      idle and nothing falls out of the window. */
  lemma {:induction false} ExitsAtOneInstant(lim: RateLimiter, now: real, nows: seq<real>)
    requires Valid(lim) && lim.calls.Some? && AllAt(lim.calls.value, Round4(now))
    requires lim.windowSizeSec > SleepThreshold
    requires AllAt(nows, now)
    ensures ExitAll(lim, nows).Ok?
    ensures var q' := ExitAll(lim, nows).value.calls.value;
      |q'| == |lim.calls.value| + |nows| && AllAt(q', Round4(now))
    decreases |nows|
  {
    if |nows| > 0 {
      ExitAtOneInstant(lim, now);
      var next := ExitShared(lim, now).value;
      assert ExitAll(lim, nows) == ExitAll(next, nows[1..]);
      ExitsAtOneInstant(next, now, nows[1..]);
    }
  }

  /** A queue whose entries all hold one instant makes the next caller wait a
      whole window once it reaches the burst limit, and not at all before. */
  lemma FullQueueWaitsOneWindow(lim: RateLimiter, t: real)
    requires Valid(lim) && lim.calls.Some? && AllAt(lim.calls.value, t)
    requires Round4(lim.windowSizeSec) == lim.windowSizeSec && lim.windowSizeSec > SleepThreshold
    ensures |lim.calls.value| >= lim.maxBurstLimit ==> Admission(lim) == Ok(lim.windowSizeSec)
    ensures |lim.calls.value| < lim.maxBurstLimit ==> Admission(lim) == Ok(0.0)
  {
  }

  /** A rate-limit preset (`ActionRateLimitDefinition`). Every field but the
      namespace defaults to `None`. */
  datatype ActionRateLimitDefinition = ActionRateLimitDefinition(
    namespace: string,
    action: Option<string>,
    burstLimit: Option<real>,
    windowSizeSec: Option<real>)
  {
    /** `generate`: the limiter this preset configures. */
    function Generate(): (r: Result<RateLimiter, LimiterError>)
      ensures r.Err? <==> burstLimit.None? || windowSizeSec.None?
      ensures r.Ok? ==> r.value.maxBurstLimit == NormalizeBurstLimit(burstLimit.value)
      ensures r.Ok? ==> r.value.windowSizeSec == windowSizeSec.value
      ensures r.Ok? ==> (r.value.Disabled() <==> windowSizeSec.value <= 0.0)
    {
      NewRateLimiter(burstLimit, windowSizeSec)
    }
  }

  /** `ActionRateLimitDefinition()` with every default. */
  const DefaultDefinition := ActionRateLimitDefinition("generic", None, None, None)

  /** Messages to a user: 30 per 1.017 seconds. */
  const UserMessageDefinition :=
    ActionRateLimitDefinition("api_action", Some("send_message--user"), Some(30.0), Some(1.017))

  /** Messages to a group: 20 per 61.02 seconds. */
  const GroupMessageDefinition :=
    ActionRateLimitDefinition("api_action", Some("send_message--group"), Some(20.0), Some(61.02))

  /** `get_rate_limiters`: the group preset first, then the user preset. */
  function GetRateLimiters(): (defs: (ActionRateLimitDefinition, ActionRateLimitDefinition))
    ensures defs.0.namespace == defs.1.namespace == "api_action"
    ensures defs.0.burstLimit == Some(20.0) && defs.0.windowSizeSec == Some(61.02)
    ensures defs.1.burstLimit == Some(30.0) && defs.1.windowSizeSec == Some(1.017)
  {
    (GroupMessageDefinition, UserMessageDefinition)
  }

  /** The presets configure enabled limiters one below their nominal burst,
      and a preset with every default cannot configure a limiter at all. */
  lemma PresetsGenerate()
    ensures GetRateLimiters().0.Generate() == Ok(RateLimiter(19, 61.02, Some([])))
    ensures GetRateLimiters().1.Generate() == Ok(RateLimiter(29, 1.017, Some([])))
    ensures DefaultDefinition.Generate() == Err(TypeError)
  {
  }

  /** The user preset: 28 calls recorded at one instant leave room for another
      call, 29 make the next caller wait a whole window. */
  lemma UserPresetForcesWait(now: real, nows: seq<real>)
    requires AllAt(nows, now)
    ensures var lim := UserMessageDefinition.Generate().value;
      var after := ExitAll(lim, nows);
      && after.Ok?
      && (|nows| < 29 ==> Admission(after.value) == Ok(0.0))
      && (|nows| >= 29 ==> Admission(after.value) == Ok(1.017))
  {
    var lim := UserMessageDefinition.Generate().value;
    assert lim == RateLimiter(29, 1.017, Some([]));
    ExitsAtOneInstant(lim, now, nows);
    Round4Examples();
    FullQueueWaitsOneWindow(ExitAll(lim, nows).value, Round4(now));
  }

  /** First half of `QueueMayExceedBurstLimit`: the first exit records 0. */
  lemma FirstExitOfExample()
    ensures ExitShared(RateLimiter(1, 1.0, Some([])), 0.0) == Ok(RateLimiter(1, 1.0, Some([0.0])))
  {
    assert Round4(0.0) == 0.0 by {
      Round4Examples();
    }
    assert Recorded([], 1.0, 0.0) == [0.0];
    assert TrimFront([0.0], 1.0) == [0.0];
  }

  /** Second half of `QueueMayExceedBurstLimit`: 0.5 is within the window of 0. */
  lemma SecondExitOfExample()
    ensures ExitShared(RateLimiter(1, 1.0, Some([0.0])), 0.5) == Ok(RateLimiter(1, 1.0, Some([0.0, 0.5])))
  {
    assert Round4(0.5) == 0.5 by {
      Round4Examples();
    }
    var appended := Recorded([0.0], 1.0, 0.5);
    assert appended == [0.0, 0.5];
    assert TrimFront(appended, 1.0) == appended by {
      assert appended[1] - appended[0] < 1.0;
    }
  }

  /** Leaving never consults the burst limit, so the queue can hold more entries
      than the limit: two exits half a window apart on a limiter of one. */
  lemma QueueMayExceedBurstLimit()
    ensures var lim := NewRateLimiter(Some(2.0), Some(1.0)).value;
      var after := ExitAll(lim, [0.0, 0.5]);
      && lim.maxBurstLimit == 1
      && after.Ok?
      && after.value.calls.value == [0.0, 0.5]
  {
    var lim := RateLimiter(1, 1.0, Some([]));
    var first := RateLimiter(1, 1.0, Some([0.0]));
    var second := RateLimiter(1, 1.0, Some([0.0, 0.5]));
    assert NewRateLimiter(Some(2.0), Some(1.0)) == Ok(lim);
    assert ExitAll(lim, [0.0, 0.5]) == ExitAll(first, [0.5]) by {
      FirstExitOfExample();
      ExitAllStep(lim, [0.0, 0.5]);
      assert [0.0, 0.5][1..] == [0.5];
    }
    assert ExitAll(first, [0.5]) == Ok(second) by {
      SecondExitOfExample();
      ExitAllStep(first, [0.5]);
      assert [0.5][1..] == [];
    }
  }

  /** A limiter idle for longer than its window forgets its history on the next exit. */
  lemma IdleLimiterRestarts(lim: RateLimiter, now: real)
    requires Settled(lim) && |lim.calls.value| > 0
    requires now - lim.windowSizeSec >= Last(lim.calls.value)
    ensures ExitShared(lim, now) == Ok(lim.(calls := Some([Round4(now)])))
  {
  }
}

=== FILE: results.dfy ===
/** Success/failure values used in place of the exceptions the modelled code raises. */
module Results {

  /** An optional value: Python's `None` or a present value. */
  datatype Option<+T> = None | Some(value: T)

  /** Either a computed value or the error the Python code raises instead. */
  datatype Result<+T, +E> = Ok(value: T) | Err(error: E)
}

=== FILE: rounding.dfy ===
/** Decimal rounding as performed by Python's `round(d, n)` on a `Decimal`:
    quantize to `n` places, ties to even (the default decimal context). */
module Rounding {

  /** Round a real to the nearest integer, ties to the even neighbour. */
  function RoundHalfEven(y: real): (n: int)
    ensures y - 0.5 <= n as real <= y + 0.5
  {
    var f := y.Floor;
    var frac := y - f as real;
    if frac < 0.5 then f
    else if frac > 0.5 then f + 1
    else if f % 2 == 0 then f
    else f + 1
  }

  /** Rounding to an integer never reverses the order of its arguments. */
  lemma RoundHalfEvenMonotone(a: real, b: real)
    requires a <= b
    ensures RoundHalfEven(a) <= RoundHalfEven(b)
  {
  }

  /** A value exactly halfway between two integers goes to the even one. */
  lemma RoundHalfEvenTie(k: int)
    ensures var n := RoundHalfEven(k as real + 0.5);
      (n == k || n == k + 1) && n % 2 == 0
  {
  }

  /** `round(x, 4)`: the multiple of 0.0001 nearest to `x`, ties to even. */
  function Round4(x: real): (r: real)
    ensures x - 0.00005 <= r <= x + 0.00005
  {
    var n := RoundHalfEven(x * 10000.0);
    assert (n as real / 10000.0) * 10000.0 == n as real;
    n as real / 10000.0
  }

  /** `round(x, 3)`: the multiple of 0.001 nearest to `x`, ties to even. */
  function Round3(x: real): (r: real)
    ensures x - 0.0005 <= r <= x + 0.0005
  {
    var n := RoundHalfEven(x * 1000.0);
    assert (n as real / 1000.0) * 1000.0 == n as real;
    n as real / 1000.0
  }

  /** `x` has at most four decimal places. */
  predicate OnGrid4(x: real) {
    (x * 10000.0).Floor as real == x * 10000.0
  }

  /** `x` has at most three decimal places. */
  predicate OnGrid3(x: real) {
    (x * 1000.0).Floor as real == x * 1000.0
  }

  /** `round(x, 4)` has at most four decimal places. */
  lemma Round4OnGrid(x: real)
    ensures OnGrid4(Round4(x))
  {
    assert Round4(x) * 10000.0 == RoundHalfEven(x * 10000.0) as real;
  }

  /** `round(x, 3)` has at most three decimal places. */
  lemma Round3OnGrid(x: real)
    ensures OnGrid3(Round3(x))
  {
    assert Round3(x) * 1000.0 == RoundHalfEven(x * 1000.0) as real;
  }

  /** A value already on the four-place grid is left alone, so rounding twice equals rounding once. */
  lemma Round4OfGrid(x: real)
    requires OnGrid4(x)
    ensures Round4(x) == x
  {
  }

  /** A value already on the three-place grid is left alone. */
  lemma Round3OfGrid(x: real)
    requires OnGrid3(x)
    ensures Round3(x) == x
  {
  }

  /** Four-place rounding preserves order. */
  lemma Round4Monotone(a: real, b: real)
    requires a <= b
    ensures Round4(a) <= Round4(b)
  {
    RoundHalfEvenMonotone(a * 10000.0, b * 10000.0);
  }

  /** Three-place rounding preserves order. */
  lemma Round3Monotone(a: real, b: real)
    requires a <= b
    ensures Round3(a) <= Round3(b)
  {
    RoundHalfEvenMonotone(a * 1000.0, b * 1000.0);
  }

  /** Rounding a non-negative value gives a non-negative value. */
  lemma Round4NonNegative(x: real)
    requires x >= 0.0
    ensures Round4(x) >= 0.0
  {
  }

  /** Values with at most four places that the limiter presets use. */
  lemma Round4Examples()
    ensures Round4(0.0) == 0.0
    ensures Round4(0.5) == 0.5
    ensures Round4(1.017) == 1.017
    ensures Round4(61.02) == 61.02
  {
  }
}
